=== FILE: README.md ===
# Anime metadata scraper — a Dafny model of its ingestion loop

This project models the ingestion engine of a metadata scraper. The engine
walks anime IDs upward from a start ID. For each ID it:

- skips the ID if it is already stored, or if it has failed three times;
- otherwise asks a catalog API for the record;
- stores the record in a relational database together with its episodes;
- keeps a failure ledger (`anime_failures`) so that failing IDs are retried a bounded number of times.

A process-wide flag (lib/scraperState.ts) is read at the top of every
iteration, and the loop stops when it is false. The dashboard's start
route sets it before a run and clears it when the run ends.

The model is functional. The database is a `World` of three maps: `anime`,
`anime_episodes` and `anime_failures`. Everything the code cannot decide
for itself is a parameter: the API's answer, which database calls fail, the
graceful-stop answer and other code calling `setScraperRunning`. These arrive as one
`Observation` per ID. Library parsing (`parseInt`, `parseFloat`, the
database's text-to-INTEGER cast, `new Date(text)`) is a `Parsers` record,
where `None` stands for `NaN`.

Modules, following the source files:

- `Decimal`, `Wrappers`: digit strings, `padStart`, `split`, `Option`.
- `Dates`: `formatDate` (utils/formatDate.ts) and a decoder for its output.
- `ScraperState`: the run flag (lib/scraperState.ts).
- `Types`: the `Anime`/`AnimeEpisode` records (types/index.d.ts), the API payload and raw JavaScript values.
- `Store`: tables, per-call database faults, `checkAnimeExists`.
- `Ledger`: `recordFailure` and the ledger clean-up.
- `Fetcher`: `fetchAnime`.
- `Inserter`: `parseDate` and `insertAnime`.
- `Scraper`: `runScraper`, as one iteration `Step` and a fuelled `Run`.

## Model

| member | source | states |
|---|---|---|
| Dates.FormatDate | utils/formatDate.ts:8-18 | a date renders exactly when year, month and day are all present and non-zero; the text is never shorter than ten characters |
| Dates.FormatDateShape | utils/formatDate.ts:13-17 | for years 1..9999 and month/day 1..99 the text is `YYYY-MM-DD`: length 10, '-' at positions 4 and 7, digits elsewhere |
| Dates.FormatDateRoundTrip | utils/formatDate.ts:8-18 | splitting the text at '-' and reading the digits gives back the year, month and day, for positive parts below 10^21 (including years above 9999) |
| Dates.FormatDateLongYear | utils/formatDate.ts:13 | padding never truncates: a five-digit year makes the text longer than ten characters |
| Decimal.PadStart | utils/formatDate.ts:13-15 | `padStart` keeps the original text as a suffix, fills only in front, and has length max(width, original length) |
| Decimal.NatToStringRoundTrip | utils/formatDate.ts:13-15 | `toString` of a non-negative integer is a digit string that reads back as the same number |
| ScraperState.SetScraperRunning | lib/scraperState.ts:8-10 | after the setter the getter answers the value passed |
| ScraperState.IdleUntilSet | lib/scraperState.ts:6 | before any setter call the flag reads false |
| ScraperState.ReadsLatestSet | lib/scraperState.ts:8-14 | the getter returns the value of the most recent setter call, however many reads came after |
| ScraperState.SetTwiceIsSetOnce | lib/scraperState.ts:8-10 | setting the same value twice leaves the same state as setting it once |
| ScraperState.ReadIsPure | lib/scraperState.ts:12-14 | a read changes no state and two reads in a row agree |
| Store.CheckAnimeExists | lib/scraper.ts:88-96 | true only for a key stored in `anime`; a failing query answers false instead of throwing |
| Ledger.RecordFailure | lib/scraper.ts:58-85 | an absent ID gets count 1, a present one count+1, the reason is replaced and every other ID is untouched; a failing database call changes nothing and nothing is thrown; ledger counts stay at least 1 |
| Ledger.ClearFailures | lib/scraper.ts:382-386 | the ID's entry is removed and every other entry kept; a failing delete changes nothing |
| Ledger.RecordTwiceThenClear | lib/scraper.ts:58-85 | two failures give count 2 with the later reason; clearing restores the ledger as it was before |
| Ledger.ThreeFailuresReachCap | lib/scraper.ts:66-80 | three failures from no entry reach the retry cap of 3 |
| Fetcher.MapPayload | lib/scraper.ts:125-134 | `episodesList` is the payload's episodes or `[]`; `episodes` is the first truthy of totalEpisodes, currentEpisode, else 0; `averageScore` is the first truthy of rating, averageScore, else 0; each date becomes the JSON text of its object, or null when absent; every other field the spread `...data` copies (id, title, format, status, season, seasonYear, duration, genres, popularity, description, releaseDate and the extra arrays) is kept unchanged |
| Fetcher.FetchAnime | lib/scraper.ts:98-145 | a stored ID returns null with no API call and no ledger change; every other null return records one failure with the reason the code uses (including "API returned status N"); an unstored ID with an ok JSON answer that has a title returns exactly the mapped record with the ledger unchanged, and no other answer returns a record |
| Inserter.InsertEpisodes | lib/scraper.ts:273-371 | rows already stored are never changed; each new row comes from the first admitted episode with its key; every admitted episode ends up stored, so a failing episode does not stop the rest; falsy ids are skipped |
| Inserter.InsertAnime | lib/scraper.ts:147-394 | a record already stored is a success with no write; an absent title fails with the TypeError text; success means the parent row is stored and (if the delete works) its ledger entry is gone while every other ledger entry keeps its value; every failure counts one attempt for the ID; a NaN id, a failing parent INSERT or one returning no row fails without writing any row; a failing read-back fails; a written parent row is the row built from the record under its coerced id; once it is written, every admitted episode of the record is stored, and every new episode row is one of the record's episodes under that parent; without a written parent no episode is added; rows only grow; the foreign key and ledger validity are kept |
| Inserter.Fail | lib/scraper.ts:389-393 | the catch block writes no anime or episode row and records one failure with the given reason under the record's key (or nothing when the ledger call fails) |
| Inserter.WriteRecord | lib/scraper.ts:250-371 | the parent row built from the record is added under its id; rows already stored are kept; the new episode rows are the record's episodes under that parent, and every admitted episode is stored; the ledger is untouched |
| Inserter.Commit | lib/scraper.ts:375-388 | after the writes the parent table is the old one plus the row built from the record, and every insertAnime promise holds; the read-back decides the answer: a failing read-back returns false and records "Database verification failed after insert", one that finds the row under the record's key returns true and clears the ledger entry unless the delete fails |
| Inserter.Persist | lib/scraper.ts:194-269 | the insertAnime promises hold for the work after the existence check, and the only parent row it can write is the one built from a record with a romaji title, under a coerced id the table did not hold; a parent INSERT that throws or returns no row gives false with no anime or episode row written, the latter recording "Failed to insert into database" |
| Inserter.InsertFreshSucceeds | lib/scraper.ts:195-269 | a record with a numeric unstored id and a romaji title is stored under that id when no database call fails, and its ledger entry is removed |
| Inserter.InsertIdempotent | lib/scraper.ts:151-156 | inserting a record again after a success reports success and changes nothing |
| Inserter.StoredRowCoerced | lib/scraper.ts:194-260 | a parent row that insertAnime newly leaves in the table sits under the record's id coerced with `parseInt(id, 10)`, its title has a romaji value, its numeric columns are the coerced inputs (NaN text becomes null) and its date columns are `formatDate(parseDate(...))` |
| Inserter.EpisodesStored | lib/scraper.ts:296-305 | episodes with distinct fresh keys are each stored under their key with their own number, title, description and airing date, linked to the parent |
| Inserter.EpisodesAddExactlyTheirKeys | lib/scraper.ts:273-313 | episodes with distinct fresh keys add exactly their keys to the table |
| Inserter.DuplicateEpisodeIsNoOp | lib/scraper.ts:296-305 | an episode whose key is already stored changes nothing (`ON CONFLICT DO NOTHING`) |
| Inserter.DateColumnRoundTrip | lib/scraper.ts:15-39 | a date object with a `year` key and positive parts, given directly or as JSON text, is stored as text that decodes back to it; an object without `year` given directly is stored as null, and JSON text without `year` is stored as `formatDate` of what the platform's date parser (`Parsers.dateJson`) makes of it |
| Scraper.Step | lib/scraper.ts:426-508 | with the limit reached nothing happens; a cleared flag stops the run with no work for the ID; each ID raises at most one counter; stored and capped IDs cause no write and no API call; a failed ledger query falls through to the fetch; the breaker fires exactly after a failed fetch that leaves failures minus successes at 50 or more; the graceful stop fires only after the ID's work is done; a failed fetch that asked the API writes no row and records one attempt under the ID with the answer's reason, one that did not ask changes nothing; a stored record came from an ok JSON answer with a title and its id's row is in the table, every other ledger entry keeps its value and, unless the record was already stored or the delete fails, its own entry is gone; a failed insert counts one attempt under the record's key; rows only grow and well-formedness is kept |
| Scraper.Run | lib/scraper.ts:426-516 | on every exit the flag is false; successes plus failures never exceed `lastId - start + 1`; successes never exceed `max(limit, 0)`; the limit exit means the limit was met and the breaker exit means the imbalance reached 50 |
| Scraper.RunScraper | lib/scraper.ts:417-517 | from zero counters and `lastId = start`, the returned `lastId` is at least `start` and the bounds of `Run` hold for the returned `{ lastId, scrapeCount, failureCount }`; the flag is false on every exit |
| Scraper.GracefulOnlyDecidesStop | lib/scraper.ts:439-507 | the graceful-stop answer changes only whether the loop goes on, never the ID's work or the counters |
| Scraper.IdleFlagStopsAtOnce | lib/scraper.ts:426-431 | a run started with the flag clear and nothing else setting it stops at the first iteration with zero counters, `lastId = start` and the database untouched |
| Scraper.Work | lib/scraper.ts:469-500 | an unskipped ID raises exactly one counter; the API is asked exactly when fetchAnime's own existence check says the ID is unstored; a failed fetch writes no row and records the answer's reason under the ID; a success or failed insert follows an ok JSON answer with a title, and a success leaves that record's id in the table; a failed insert counts one attempt under the record's key; a success keeps every other ledger entry, changes nothing when the record was already stored and otherwise removes its own entry unless the delete fails; rows only grow |
| Scraper.Attempt | lib/scraper.ts:472-507 | the breaker fires exactly after a failed fetch that leaves failures minus successes at 50 or more, and otherwise the graceful-stop answer alone decides whether the loop stops |
| Scraper.RefusedIdRecorded | lib/scraper.ts:469-476 | an iteration for an unstored, uncapped ID that the API refuses records one more attempt with "API returned status N" and writes no row |
| Scraper.ThreeFailedFetchesThenSkipped | lib/scraper.ts:449-476 | an ID refused in three runs started at it ends with count 3 and the last status as reason; a fourth run skips it without an API call, a write or a counter change |
| Scraper.ServedIdStored | lib/scraper.ts:469-497 | an unstored, uncapped ID that the API serves is stored and counted as one success, and its ledger entry is removed |
| Scraper.TwoServedSteps | lib/scraper.ts:426-497 | in a run from 1 with limit 2, two served fresh IDs are each stored without a stop, leaving counters `{2, 0}`, `lastId` 2 and the flag set |
| Scraper.TwoServedIdsReachLimit | lib/scraper.ts:417-517 | with IDs 1 and 2 served and a limit of 2, the run returns `{ lastId: 2, scrapeCount: 2, failureCount: 0 }`, stores both and stops on the limit with the flag cleared |

## Left out

- HTTP routes, middleware and UI. The routes also run their own SQL (the stats, the `MAX(id)` start point), which is not modelled.
- The dashboard's stop button: app/api/dashboard/stop-scrape/route.ts:8-18 declares its own `isScraperRunning` flag with its own setter and getter. The loop never reads that flag, so the route cannot stop a run, and the model has no counterpart for it.
- Of the routes, only app/api/dashboard/start-scrape/route.ts calls the setter of lib/scraperState.ts (runScraper itself clears the flag when it exits, lib/scraper.ts:514): `true` before a run (line 26) and `false` in the run's `finally` (line 35). No route calls the getter. The `controller` field of an `Observation` stands for such a call landing during a run: the `finally` of an earlier run, a second start, or another run's own final `setScraperRunning(false)`.
- The cron routes (app/api/cron/route.ts, app/api/scrape/route.ts) call `runScraper` without setting the flag, so such a run stops at its first iteration unless a dashboard run has set it (Scraper.IdleFlagStopsAtOnce).
- `ensureSchema` and the schema DDL: the schema is assumed to exist. Its constraints (primary keys, NOT NULL `title_romaji`, the episode foreign key, `attempt_count DEFAULT 1`) are built into the model.
- Logging, the one-second delay after each stored record, and the `Cache-Control` header: they have no effect on state.
- The string branches of `parseDate` (`new Date(text)`): they depend on the platform's date parser and are parameters (`Parsers.dateText` for other text, `Parsers.dateJson` for JSON text of a date object without `year`, lib/scraper.ts:31-44).
- `parseInt`, `parseFloat` and the database's text-to-INTEGER cast: library behaviour, passed as parameters. Floating point is not modelled; every number is an integer.
- Concurrency between two runs or between requests: each ID's outside events are one `Observation`, and a setter call made elsewhere is seen only at the top of an iteration, where the loop reads the flag.
- `isGracefulStopRequested`: lib/scraper.ts imports it from lib/scraperState.ts, but that file defines only the run flag. Its answer is taken as an outside input per ID, and an exception from calling it is not modelled.
- lib/scraperState.ts holds one boolean, initially false. It has no graceful-stop flag, no timestamps and no staleness rule, and the model adds none.
- The loop tests `scrapeCount < limit` before it reads the flag (lib/scraper.ts:426-428). The model keeps that order.
- `insertAnime`'s "already stored" success (lib/scraper.ts:152-156) returns before the ledger delete, so the ID's ledger entry stays. The model keeps that.
- Duplicate ledger rows per anime ID: `anime_failures` has a SERIAL key, but `recordFailure` only ever updates the first row it finds. The model keeps one entry per ID.
- Scraper.Run: the source loop has no bound of its own (it can walk stored IDs forever). The model runs at most `fuel` iterations and reports `OutOfFuel`; the flag-cleared promise is stated only for the other exits.
- Scraper.RunScraper: the returned counters are JavaScript numbers. The model uses unbounded integers and does not model precision loss past 2^53.
- Dates.FormatDateShape: stated for years 1..9999 and two-digit months and days only. A negative year renders with the sign inside the padding (`-5` becomes `00-5`), and the model computes this but states no property of it.
- Decimal.NatToString: renders every integer in plain digits. JavaScript's `toString` switches to exponent form at 10^21 (`1e+21`), so for a date part of that size formatDate's text differs from the model's, and its round trip is promised only below 10^21.
- A `null` title (as opposed to an absent one): lib/scraper.ts:136 then throws "Cannot read properties of null (reading 'romaji')". The model has one `None` for both, so it records the "…of undefined…" text as the reason. Only the text of the stored reason differs.

=== FILE: dates.dfy ===
/**
  utils/formatDate.ts: rendering a `{ year, month, day }` object as the
  `YYYY-MM-DD` text stored in the date columns, and a reader that takes such
  a text apart again.
 */
module Dates {
  import opened Wrappers
  import opened Decimal

  /** A parsed date: each part is a number, or absent (`undefined`). */
  datatype DateParts = DateParts(year: Option<int>, month: Option<int>, day: Option<int>)

  /** A number part that JavaScript treats as true: present and not 0. */
  predicate Given(v: Option<int>)
  {
    v.Some? && v.value != 0
  }

  predicate Complete(d: Option<DateParts>)
  {
    d.Some? && Given(d.value.year) && Given(d.value.month) && Given(d.value.day)
  }

  /** One part of the rendering: the number's text, padded with '0' to `width`. */
  function Field(n: int, width: nat): string
  {
    PadStart(IntToString(n), width, '0')
  }

  function Joined(a: string, b: string, c: string): string
  {
    a + "-" + b + "-" + c
  }

  /**
    formatDate: null unless all three parts are given, otherwise the year
    padded to four characters, month and day to two, joined by '-'.
   */
  function FormatDate(d: Option<DateParts>): (r: Option<string>)
    ensures r.Some? <==> Complete(d)
    ensures r.Some? ==> |r.value| >= 10
  {
    if !Complete(d) then None
    else
      var p := d.value;
      Some(Joined(Field(p.year.value, 4), Field(p.month.value, 2), Field(p.day.value, 2)))
  }

  /** Reads a `Y-M-D` text of three digit groups back into its numbers. */
  function DecodeDate(s: string): (r: Option<(nat, nat, nat)>)
  {
    var parts := SplitOn(s, '-');
    if |parts| == 3 && AllDigits(parts[0]) && AllDigits(parts[1]) && AllDigits(parts[2])
    then Some((DigitsValue(parts[0]), DigitsValue(parts[1]), DigitsValue(parts[2])))
    else None
  }

  function Ymd(y: int, m: int, d: int): Option<DateParts>
  {
    Some(DateParts(Some(y), Some(m), Some(d)))
  }

  /** formatDate on a complete date is the three padded fields joined by '-'. */
  lemma FormatYmd(y: int, m: int, d: int)
    requires y != 0 && m != 0 && d != 0
    ensures FormatDate(Ymd(y, m, d)) == Some(Joined(Field(y, 4), Field(m, 2), Field(d, 2)))
  {
  }

  /** A padded positive number is a digit string with the same value. */
  lemma PaddedDigits(n: int, width: nat)
    requires n >= 1
    ensures AllDigits(Field(n, width))
    ensures '-' !in Field(n, width)
    ensures DigitsValue(Field(n, width)) == n
  {
    var s := NatToString(n);
    assert IntToString(n) == s;
    NatToStringRoundTrip(n);
    if |s| < width {
      LeadingZerosValue(width - |s|, s);
      assert PadStart(s, width, '0') == Repeat('0', width - |s|) + s;
    }
    var r := Field(n, width);
    assert forall i :: 0 <= i < |r| ==> IsDigit(r[i]);
  }

  /** A positive number below 10^k fills a field of width k exactly. */
  lemma FieldWidth(n: int, k: nat)
    requires k >= 1 && 1 <= n < Pow10(k)
    ensures |Field(n, k)| == k
  {
    assert IntToString(n) == NatToString(n);
    ShortRendering(n, k);
  }

  lemma JoinedShape(a: string, b: string, c: string)
    requires |a| == 4 && |b| == 2 && |c| == 2
    requires AllDigits(a) && AllDigits(b) && AllDigits(c)
    ensures var s := Joined(a, b, c);
      && |s| == 10 && s[4] == '-' && s[7] == '-'
      && forall i :: 0 <= i < 10 && i != 4 && i != 7 ==> IsDigit(s[i])
  {
  }

  /** Years 1-9999, months and days 1-99 give exactly `DDDD-DD-DD`. */
  lemma FormatDateShape(y: int, m: int, d: int)
    requires 1 <= y <= 9999 && 1 <= m <= 99 && 1 <= d <= 99
    ensures FormatDate(Ymd(y, m, d)).Some?
    ensures var s := FormatDate(Ymd(y, m, d)).value;
      && |s| == 10 && s[4] == '-' && s[7] == '-'
      && forall i :: 0 <= i < 10 && i != 4 && i != 7 ==> IsDigit(s[i])
  {
    FormatYmd(y, m, d);
    FieldWidth(y, 4);
    FieldWidth(m, 2);
    FieldWidth(d, 2);
    PaddedDigits(y, 4);
    PaddedDigits(m, 2);
    PaddedDigits(d, 2);
    JoinedShape(Field(y, 4), Field(m, 2), Field(d, 2));
  }

  lemma SplitJoined(a: string, b: string, c: string)
    requires '-' !in a && '-' !in b && '-' !in c
    ensures SplitOn(Joined(a, b, c), '-') == [a, b, c]
  {
    assert Joined(a, b, c) == a + ['-'] + (b + ['-'] + c);
    SplitAtFirstSeparator(a, b + ['-'] + c, '-');
    SplitAtFirstSeparator(b, c, '-');
    SplitWithoutSeparator(c, '-');
  }

  lemma DecodeJoined(a: string, b: string, c: string)
    requires AllDigits(a) && AllDigits(b) && AllDigits(c)
    requires '-' !in a && '-' !in b && '-' !in c
    ensures DecodeDate(Joined(a, b, c)) == Some((DigitsValue(a), DigitsValue(b), DigitsValue(c)))
  {
    SplitJoined(a, b, c);
  }

  /** Decoding a rendered date gives back the year, month and day it was made from. */
  lemma FormatDateRoundTrip(y: int, m: int, d: int)
    requires y >= 1 && m >= 1 && d >= 1
    ensures FormatDate(Ymd(y, m, d)).Some?
    ensures DecodeDate(FormatDate(Ymd(y, m, d)).value) == Some((y, m, d))
  {
    FormatYmd(y, m, d);
    PaddedDigits(y, 4);
    PaddedDigits(m, 2);
    PaddedDigits(d, 2);
    DecodeJoined(Field(y, 4), Field(m, 2), Field(d, 2));
  }

  /** Padding never cuts: a five-digit year makes the text longer than ten characters. */
  lemma FormatDateLongYear(y: int, m: int, d: int)
    requires y >= 10000 && m != 0 && d != 0
    ensures FormatDate(Ymd(y, m, d)).Some?
    ensures |FormatDate(Ymd(y, m, d)).value| > 10
  {
    FormatYmd(y, m, d);
    assert IntToString(y) == NatToString(y);
    LongRendering(y, 4);
    assert |Field(y, 4)| >= 5;
  }
}

=== FILE: decimal.dfy ===
/**
  Decimal rendering of integers as JavaScript's `Number.prototype.toString`
  produces it for integral values below 10^21 in magnitude (JavaScript
  switches to exponent form, `1e+21`, from there on; this module does not),
  `String.prototype.padStart`, and the reading back of digit strings and
  `-`-separated fields.
 */
module Decimal {

  predicate IsDigit(c: char)
  {
    '0' <= c <= '9'
  }

  predicate AllDigits(s: string)
  {
    forall i :: 0 <= i < |s| ==> IsDigit(s[i])
  }

  function DigitChar(d: nat): (c: char)
    requires d < 10
    ensures IsDigit(c)
  {
    ('0' as int + d) as char
  }

  function DigitValue(c: char): (d: nat)
    requires IsDigit(c)
    ensures d < 10
  {
    c as int - '0' as int
  }

  function Pow10(k: nat): (p: nat)
    ensures p >= 1
  {
    if k == 0 then 1 else 10 * Pow10(k - 1)
  }

  /** Shortest decimal rendering of a non-negative integer: no sign, no leading zeros. */
  function NatToString(n: nat): (s: string)
    ensures |s| >= 1
    ensures AllDigits(s)
    ensures |s| > 1 ==> s[0] != '0'
    decreases n
  {
    if n < 10 then [DigitChar(n)] else NatToString(n / 10) + [DigitChar(n % 10)]
  }

  /** `n.toString()` for an integral number: a minus sign in front of negatives. */
  function IntToString(n: int): string
  {
    if n < 0 then "-" + NatToString(-n) else NatToString(n)
  }

  /** The value of a string of decimal digits, most significant first. */
  function DigitsValue(s: string): nat
    requires AllDigits(s)
    decreases |s|
  {
    if |s| == 0 then 0 else DigitsValue(s[..|s| - 1]) * 10 + DigitValue(s[|s| - 1])
  }

  function Repeat(c: char, k: nat): (s: string)
    ensures |s| == k
    ensures forall i :: 0 <= i < k ==> s[i] == c
  {
    if k == 0 then [] else [c] + Repeat(c, k - 1)
  }

  /**
    `s.padStart(width, fill)`: fill characters in front until the string is
    `width` long; a string already that long is returned whole, never cut.
   */
  function PadStart(s: string, width: nat, fill: char): (r: string)
    ensures |r| == if |s| < width then width else |s|
    ensures r[|r| - |s|..] == s
    ensures forall i :: 0 <= i < |r| - |s| ==> r[i] == fill
  {
    if |s| >= width then s else Repeat(fill, width - |s|) + s
  }

  /** Reading a digit string back gives the number it was rendered from. */
  lemma {:induction false} NatToStringRoundTrip(n: nat)
    ensures DigitsValue(NatToString(n)) == n
    decreases n
  {
    if n >= 10 {
      NatToStringRoundTrip(n / 10);
      var s := NatToString(n);
      assert s[..|s| - 1] == NatToString(n / 10);
    }
  }

  lemma {:induction false} ZerosValue(k: nat)
    ensures AllDigits(Repeat('0', k))
    ensures DigitsValue(Repeat('0', k)) == 0
  {
    if k > 0 {
      var z := Repeat('0', k);
      assert z[..k - 1] == Repeat('0', k - 1) by {
        ZerosPrefix(k);
      }
      ZerosValue(k - 1);
    }
  }

  /** Dropping the last zero of a run of zeros leaves a shorter run. */
  lemma ZerosPrefix(k: nat)
    requires k > 0
    ensures Repeat('0', k)[..k - 1] == Repeat('0', k - 1)
  {
  }

  /** Leading zeros do not change the value of a digit string. */
  lemma {:induction false} LeadingZerosValue(k: nat, s: string)
    requires AllDigits(s)
    ensures AllDigits(Repeat('0', k) + s)
    ensures DigitsValue(Repeat('0', k) + s) == DigitsValue(s)
    decreases |s|
  {
    var z := Repeat('0', k);
    if |s| == 0 {
      assert z + s == z;
      ZerosValue(k);
    } else {
      var t := z + s;
      assert t[..|t| - 1] == z + s[..|s| - 1];
      LeadingZerosValue(k, s[..|s| - 1]);
    }
  }

  /** A number below 10^k renders in at most k digits. */
  lemma {:induction false} ShortRendering(n: nat, k: nat)
    requires k >= 1
    requires n < Pow10(k)
    ensures |NatToString(n)| <= k
    decreases n
  {
    if n >= 10 {
      ShortRendering(n / 10, k - 1);
    }
  }

  /** A number of at least 10^k renders in more than k digits. */
  lemma {:induction false} LongRendering(n: nat, k: nat)
    requires n >= Pow10(k)
    ensures |NatToString(n)| > k
    decreases n
  {
    if k > 0 {
      LongRendering(n / 10, k - 1);
    }
  }

  /** `s.split(sep)`: the pieces between separators, at least one, possibly empty. */
  function SplitOn(s: string, sep: char): (parts: seq<string>)
    ensures |parts| >= 1
    decreases |s|
  {
    if |s| == 0 then [""]
    else
      var rest := SplitOn(s[1..], sep);
      if s[0] == sep then [""] + rest else [[s[0]] + rest[0]] + rest[1..]
  }

  lemma {:induction false} SplitWithoutSeparator(a: string, sep: char)
    requires sep !in a
    ensures SplitOn(a, sep) == [a]
    decreases |a|
  {
    if |a| > 0 {
      SplitWithoutSeparator(a[1..], sep);
      assert [a[0]] + a[1..] == a;
    }
  }

  /** Splitting at the first separator peels off the text before it. */
  lemma {:induction false} SplitAtFirstSeparator(a: string, b: string, sep: char)
    requires sep !in a
    ensures SplitOn(a + [sep] + b, sep) == [a] + SplitOn(b, sep)
    decreases |a|
  {
    var s := a + [sep] + b;
    if |a| == 0 {
      assert s[1..] == b;
    } else {
      assert s[1..] == a[1..] + [sep] + b;
      SplitAtFirstSeparator(a[1..], b, sep);
      assert [a[0]] + a[1..] == a;
    }
  }
}

=== FILE: fetcher.dfy ===
/**
  fetchAnime (lib/scraper.ts): skip IDs already stored, ask the catalog API
  for one ID, record a failure for anything but a usable answer, and map the
  answer into an `Anime` with `||` fallbacks.
 */
module Fetcher {
  import opened Wrappers
  import opened Types
  import opened Ledger
  import opened Store
  import Decimal

  /** The response body: JSON, or a body whose reading threw (`res.json()` rejected, or `data` not an object). */
  datatype Body = Json(data: Payload) | Unreadable(error: Option<string>)

  /**
    The outside world's answer to `fetch(BASE/info/id)`: a response with its
    status, or a rejection. An error's message is `Some`; a thrown non-Error is `None`.
   */
  datatype ApiOutcome = Response(status: int, body: Body) | Rejected(error: Option<string>)

  /** `res.ok`: a status in the range 200-299. */
  predicate Ok(status: int)
  {
    200 <= status <= 299
  }

  /** `error instanceof Error ? error.message : 'Unknown error'` */
  function ErrorReason(e: Option<string>): string
  {
    e.GetOr("Unknown error")
  }

  function StatusReason(status: int): string
  {
    "API returned status " + Decimal.IntToString(status)
  }

  /** The reason fetchAnime records when the API's answer is not a usable record. */
  function FailureReason(api: ApiOutcome): string
  {
    match api
    case Rejected(e) => ErrorReason(e)
    case Response(status, body) =>
      if !Ok(status) then StatusReason(status)
      else match body
        case Unreadable(e) => ErrorReason(e)
        case Json(_) => TitleReadError
  }

  /**
    The mapping of lib/scraper.ts:125-134: every payload field is kept; the episode
    list defaults to `[]`; `episodes` is `totalEpisodes || currentEpisode || 0`;
    `averageScore` is `rating || averageScore || 0`; each date object is
    replaced by its JSON text, or null.
   */
  function MapPayload(d: Payload): (a: Anime)
    ensures a.episodesList.Some? && (d.episodes.Some? ==> a.episodesList == d.episodes)
    ensures d.episodes.None? ==> a.episodesList == Some([])
    ensures Truthy(a.episodes) <==> Truthy(d.totalEpisodes) || Truthy(d.currentEpisode)
    ensures Truthy(d.totalEpisodes) ==> a.episodes == d.totalEpisodes
    ensures !Truthy(d.totalEpisodes) && Truthy(d.currentEpisode) ==> a.episodes == d.currentEpisode
    ensures !Truthy(a.episodes) ==> a.episodes == Num(0)
    ensures Truthy(a.averageScore) <==> Truthy(d.rating) || Truthy(d.averageScore)
    ensures Truthy(d.rating) ==> a.averageScore == d.rating
    ensures !Truthy(d.rating) && Truthy(d.averageScore) ==> a.averageScore == d.averageScore
    ensures !Truthy(a.averageScore) ==> a.averageScore == Num(0)
    ensures a.startDate == (if d.startDate.Some? then DateJson(d.startDate.value) else NoDate)
    ensures a.endDate == (if d.endDate.Some? then DateJson(d.endDate.value) else NoDate)
    ensures a.id == d.id && a.title == d.title && a.extra == d.extra
    ensures && a.format == d.format && a.status == d.status && a.season == d.season
            && a.seasonYear == d.seasonYear && a.duration == d.duration && a.genres == d.genres
            && a.popularity == d.popularity && a.description == d.description
            && a.releaseDate == d.releaseDate
  {
    Anime(
      id := d.id, title := d.title,
      format := d.format, status := d.status, season := d.season,
      seasonYear := d.seasonYear,
      episodes := Or(Or(d.totalEpisodes, d.currentEpisode), Num(0)),
      duration := d.duration, genres := d.genres,
      averageScore := Or(Or(d.rating, d.averageScore), Num(0)),
      popularity := d.popularity, description := d.description,
      startDate := if d.startDate.Some? then DateJson(d.startDate.value) else NoDate,
      endDate := if d.endDate.Some? then DateJson(d.endDate.value) else NoDate,
      releaseDate := d.releaseDate,
      episodesList := Some(d.episodes.GetOr([])),
      extra := d.extra)
  }

  /** What fetchAnime returns, the ledger after it, and whether it called the API. */
  datatype Fetched = Fetched(anime: Option<Anime>, failures: FailureTable, apiCalled: bool)

  /**
    fetchAnime(id). The existence check comes first and a stored ID returns
    null without calling the API or touching the ledger. Every other null
    return records a failure for `id`. The log line reading
    `title.romaji` throws for a payload without a title.
   */
  function FetchAnime(w: World, id: int, api: ApiOutcome, f: Faults): (r: Fetched)
    ensures CheckAnimeExists(w.anime, Some(id), f.fetchExists) ==> r == Fetched(None, w.failures, false)
    ensures !CheckAnimeExists(w.anime, Some(id), f.fetchExists) ==> r.apiCalled
    ensures r.anime.None? && r.apiCalled ==> Recorded(w.failures, r.failures, Some(id), FailureReason(api), f.fetchLedger)
    ensures api.Response? && !Ok(api.status) ==> r.anime.None?
    ensures (&& !CheckAnimeExists(w.anime, Some(id), f.fetchExists)
             && api.Response? && Ok(api.status) && api.body.Json? && api.body.data.title.Some?)
      ==> r == Fetched(Some(MapPayload(api.body.data)), w.failures, true)
    ensures r.anime.Some? ==>
      && r.failures == w.failures
      && api.Response? && Ok(api.status) && api.body.Json? && api.body.data.title.Some?
      && r.anime.value == MapPayload(api.body.data)
    ensures LedgerValid(w.failures) ==> LedgerValid(r.failures)
  {
    if CheckAnimeExists(w.anime, Some(id), f.fetchExists) then Fetched(None, w.failures, false)
    else
      var failed := Fetched(None, RecordFailure(w.failures, Some(id), FailureReason(api), f.fetchLedger), true);
      match api
      case Rejected(_) => failed
      case Response(status, body) =>
        if !Ok(status) then failed
        else match body
          case Unreadable(_) => failed
          case Json(data) =>
            if data.title.None? then failed
            else Fetched(Some(MapPayload(data)), w.failures, true)
  }
}

=== FILE: inserter.dfy ===
/**
  insertAnime (lib/scraper.ts) and the object branch of parseDate that feeds
  its date columns: an idempotent upsert of one parent row, best-effort
  episode rows, a read-back check, and clearing the failure ledger.
 */
module Inserter {
  import opened Wrappers
  import opened Types
  import opened Dates
  import opened Ledger
  import opened Store

  /**
    parseDate. Null-like input gives undefined. An object with a `year` key
    (given directly, or as JSON text that parses back to it) gives its
    year/month/day where each is a number. An object without `year` reaches
    `new Date(String(obj))`, whose text "[object Object]" holds no date, and
    gives undefined; JSON text without `year` reaches `new Date(text)` with
    that text, which the platform's parser may accept. Other text is left to
    the `new Date(text)` parser too.
   */
  function ParseDate(raw: RawDate, p: Parsers): Option<DateParts>
  {
    match raw
    case NoDate => None
    case DateObject(o) => if o.hasYear then Some(DateParts(o.year, o.month, o.day)) else None
    case DateJson(o) => if o.hasYear then Some(DateParts(o.year, o.month, o.day)) else p.dateJson(o)
    case DateText(t) => if t == "" then None else p.dateText(t)
  }

  /** The value a date column receives: `formatDate(parseDate(raw))`. */
  function DateColumn(raw: RawDate, p: Parsers): Option<string>
  {
    FormatDate(ParseDate(raw, p))
  }

  /** `genres.join(',')` */
  function JoinGenres(g: seq<string>): string
    decreases |g|
  {
    if |g| == 0 then "" else if |g| == 1 then g[0] else g[0] + "," + JoinGenres(g[1..])
  }

  /** The parent row built from a record whose title has a romaji value (lib/scraper.ts:250-263). */
  function BuildRow(a: Anime, p: Parsers): AnimeRow
    requires a.title.Some? && a.title.value.romaji.Some?
  {
    var t := a.title.value;
    AnimeRow(
      titleRomaji := t.romaji.value, titleEnglish := t.english, titleNative := t.native,
      format := a.format, status := a.status, season := a.season,
      seasonYear := Coerce(a.seasonYear, p.decimalInt),
      episodes := Coerce(a.episodes, p.decimalInt),
      duration := Coerce(a.duration, p.decimalInt),
      genres := if a.genres.Some? then Some(JoinGenres(a.genres.value)) else None,
      averageScore := Coerce(a.averageScore, p.float),
      popularity := Coerce(a.popularity, p.decimalInt),
      description := a.description, releaseDate := a.releaseDate,
      startDate := DateColumn(a.startDate, p), endDate := DateColumn(a.endDate, p))
  }

  /** One episode ready to insert, whichever list it came from. */
  datatype EpisodeDraft = EpisodeDraft(
    id: RawNum, number: RawNum,
    title: Option<string>, description: Option<string>, airedAt: Option<string>)

  /** An episode of `episodesList`: its fields are used with `?? null`. */
  function PrimaryDraft(e: RawEpisode): EpisodeDraft
  {
    EpisodeDraft(e.id, e.number, e.title, e.description, e.airedAt)
  }

  /** An episode of a fallback list: each field is the first truthy of its alternative names, or null. */
  function AltDraft(e: AltEpisode): EpisodeDraft
  {
    EpisodeDraft(
      e.id,
      Or(Or(e.number, e.episodeNumber), Missing),
      OrText(OrText(e.title, e.name), None),
      OrText(OrText(e.description, e.synopsis), None),
      OrText(OrText(OrText(e.airedAt, e.airedAtSnake), e.airDate), None))
  }

  /** The fallback property names, in the order they are tried. */
  const AltEpisodeProps: seq<string> := ["episodes_list", "episode_list", "episode", "episodes_data", "episodesData"]

  /** The first property among `props` holding a non-empty array. */
  function FirstAltList(extra: map<string, seq<AltEpisode>>, props: seq<string>): Option<seq<AltEpisode>>
    decreases |props|
  {
    if |props| == 0 then None
    else if props[0] in extra && |extra[props[0]]| > 0 then Some(extra[props[0]])
    else FirstAltList(extra, props[1..])
  }

  /** The episodes insertAnime tries to insert: `episodesList` if it is a non-empty array, else the first fallback list. */
  function Drafts(a: Anime): seq<EpisodeDraft>
  {
    if a.episodesList.Some? && |a.episodesList.value| > 0 then
      var l := a.episodesList.value;
      seq(|l|, i requires 0 <= i < |l| => PrimaryDraft(l[i]))
    else match FirstAltList(a.extra, AltEpisodeProps)
      case Some(l) => seq(|l|, i requires 0 <= i < |l| => AltDraft(l[i]))
      case None => []
  }

  /**
    The primary key an episode is inserted under: text that `parseInt`
    reads is replaced by that number; other text is bound as is and read by
    the INTEGER column.
   */
  function EpisodeKey(id: RawNum, p: Parsers): Option<int>
  {
    match id
    case Missing => None
    case Num(n) => Some(n)
    case Text(s) => if p.anyInt(s).Some? then p.anyInt(s) else p.sqlInt(s)
  }

  function EpisodeRowOf(parent: int, d: EpisodeDraft, p: Parsers): EpisodeRow
  {
    EpisodeRow(parent, Coerce(d.number, p.decimalInt), d.title, d.description, d.airedAt)
  }

  /**
    The episode at position `i` reaches the table: its id is truthy, forms
    an integer key, its INSERT does not fail and the parent row exists.
   */
  predicate Admitted(d: EpisodeDraft, i: nat, parent: int, anime: map<int, AnimeRow>, errors: set<nat>, p: Parsers)
  {
    Truthy(d.id) && EpisodeKey(d.id, p).Some? && i !in errors && parent in anime
  }

  /**
    One pass of the episode loop: a falsy id is skipped, a failing INSERT
    is caught and logged, and an existing key is left alone
    (`ON CONFLICT (id) DO NOTHING`).
   */
  function InsertEpisode(table: map<int, EpisodeRow>, d: EpisodeDraft, i: nat, parent: int,
                         anime: map<int, AnimeRow>, errors: set<nat>, p: Parsers): map<int, EpisodeRow>
  {
    if !Admitted(d, i, parent, anime, errors, p) then table
    else
      var k := EpisodeKey(d.id, p).value;
      if k in table then table else table[k := EpisodeRowOf(parent, d, p)]
  }

  /** No draft before position `i` is admitted with key `k`. */
  predicate NoEarlierWithKey(drafts: seq<EpisodeDraft>, i: nat, k: int, parent: int,
                             anime: map<int, AnimeRow>, errors: set<nat>, p: Parsers)
    requires i <= |drafts|
  {
    forall j :: 0 <= j < i ==> !(Admitted(drafts[j], j, parent, anime, errors, p) && EpisodeKey(drafts[j].id, p) == Some(k))
  }

  /** The first `n` drafts are the same on their own as at the head of `drafts`, so "no earlier draft has the key" carries over. */
  lemma PrefixAgrees(drafts: seq<EpisodeDraft>, n: nat, parent: int,
                     anime: map<int, AnimeRow>, errors: set<nat>, p: Parsers)
    requires n <= |drafts|
    ensures forall j :: 0 <= j < n ==> drafts[..n][j] == drafts[j]
    ensures forall i, k :: 0 <= i <= n && NoEarlierWithKey(drafts[..n], i, k, parent, anime, errors, p) ==>
      NoEarlierWithKey(drafts, i, k, parent, anime, errors, p)
  {
  }

  /**
    The episode loop over `drafts` in order. Stored rows are never changed,
    every new row belongs to `parent` and comes from an admitted draft
    (the first one with its key), and every admitted draft's key ends up
    stored: one episode's failure does not stop the others.
   */
  function InsertEpisodes(table: map<int, EpisodeRow>, drafts: seq<EpisodeDraft>, parent: int,
                          anime: map<int, AnimeRow>, errors: set<nat>, p: Parsers): (r: map<int, EpisodeRow>)
    ensures forall k :: k in table ==> k in r && r[k] == table[k]
    ensures forall k :: k in r && k !in table ==>
      exists i :: 0 <= i < |drafts| && Admitted(drafts[i], i, parent, anime, errors, p)
        && EpisodeKey(drafts[i].id, p) == Some(k)
        && r[k] == EpisodeRowOf(parent, drafts[i], p)
        && NoEarlierWithKey(drafts, i, k, parent, anime, errors, p)
    ensures forall i :: 0 <= i < |drafts| && Admitted(drafts[i], i, parent, anime, errors, p) ==>
      EpisodeKey(drafts[i].id, p).value in r
    decreases |drafts|
  {
    if |drafts| == 0 then table
    else
      var last := |drafts| - 1;
      var prefix := drafts[..last];
      var before := InsertEpisodes(table, prefix, parent, anime, errors, p);
      PrefixAgrees(drafts, last, parent, anime, errors, p);
      InsertEpisode(before, drafts[last], last, parent, anime, errors, p)
  }

  /** What insertAnime returns, and the database after it. */
  datatype Inserted = Inserted(ok: bool, world: World)

  /** The catch block: record a failure under the record's own ID and return false. */
  function Fail(w: World, key: Option<int>, reason: string, f: Faults): (r: Inserted)
    ensures !r.ok && r.world.anime == w.anime && r.world.episodes == w.episodes
    ensures Recorded(w.failures, r.world.failures, key, reason, f.insertLedger)
    ensures LedgerValid(w.failures) ==> LedgerValid(r.world.failures)
  {
    Inserted(false, w.(failures := RecordFailure(w.failures, key, reason, f.insertLedger)))
  }

  /** Whether insertAnime's first existence check finds the record (after the title log line). */
  predicate AlreadyStored(w: World, a: Anime, f: Faults, p: Parsers)
  {
    a.title.Some? && CheckAnimeExists(w.anime, SqlKey(a.id, p), f.insertExists)
  }

  /**
    The episode rows `after` adds to `before` are those of the record's
    episodes, under parent `id`, and every admitted episode is stored.
   */
  predicate EpisodesOf(a: Anime, id: int, before: map<int, EpisodeRow>, after: map<int, EpisodeRow>,
                       anime: map<int, AnimeRow>, errors: set<nat>, p: Parsers)
  {
    && (forall k :: k in after && k !in before ==>
          exists i :: 0 <= i < |Drafts(a)| && EpisodeKey(Drafts(a)[i].id, p) == Some(k)
            && after[k] == EpisodeRowOf(id, Drafts(a)[i], p))
    && (forall i :: 0 <= i < |Drafts(a)| && Admitted(Drafts(a)[i], i, id, anime, errors, p) ==>
          EpisodeKey(Drafts(a)[i].id, p).value in after)
  }

  /**
    The writes that follow a parent INSERT returning its row: the row under
    `id`, then the episode loop against the table that now holds it. The
    ledger is left alone.
   */
  function WriteRecord(w: World, a: Anime, id: int, f: Faults, p: Parsers): (r: World)
    requires a.title.Some? && a.title.value.romaji.Some? && id !in w.anime
    ensures r.anime == w.anime[id := BuildRow(a, p)] && r.failures == w.failures
    ensures forall k :: k in w.episodes ==> k in r.episodes && r.episodes[k] == w.episodes[k]
    ensures EpisodesOf(a, id, w.episodes, r.episodes, r.anime, f.episodeFailures, p)
    ensures Integrity(w) ==> Integrity(r)
  {
    var anime' := w.anime[id := BuildRow(a, p)];
    World(anime', InsertEpisodes(w.episodes, Drafts(a), id, anime', f.episodeFailures, p), w.failures)
  }

  /**
    What every return of insertAnime past its first existence check
    promises. Success means the parent row is stored under the record's key
    and, unless the delete failed, its ledger entry is gone, with every
    other ledger entry untouched; failure counts one more attempt. A `NaN`
    id writes nothing. Only the record's own ID can be added; each new
    episode row belongs to it and comes from one of its episodes; once the
    parent row is written every admitted episode is stored; rows only grow.
   */
  predicate Outcome(w: World, a: Anime, f: Faults, p: Parsers, r: Inserted)
  {
    var key := SqlKey(a.id, p);
    var id := Coerce(a.id, p.decimalInt);
    && (r.ok ==> key.Some? && key.value in r.world.anime)
    && (r.ok && !f.clearLedger ==> key.value !in r.world.failures)
    && (r.ok ==> forall k :: k in w.failures && k != key.value ==>
          k in r.world.failures && r.world.failures[k] == w.failures[k])
    && (!r.ok ==> Counted(w.failures, r.world.failures, key, f.insertLedger))
    && (a.title.Some? && id.None? ==> !r.ok && r.world.anime == w.anime && r.world.episodes == w.episodes)
    && r.world.anime.Keys <= w.anime.Keys + (if id.Some? then {id.value} else {})
    && (r.world.anime.Keys == w.anime.Keys ==> r.world.episodes == w.episodes)
    && (r.world.anime.Keys != w.anime.Keys ==>
          id.Some? && EpisodesOf(a, id.value, w.episodes, r.world.episodes, r.world.anime, f.episodeFailures, p))
    && Grows(w, r.world)
    && (WellFormed(w) ==> WellFormed(r.world))
  }

  /** `w'` holds the parent row built from `a` under its coerced id, which `w` did not have. */
  predicate Written(w: World, a: Anime, p: Parsers, w': World)
  {
    && a.title.Some? && a.title.value.romaji.Some?
    && Coerce(a.id, p.decimalInt).Some? && Coerce(a.id, p.decimalInt).value !in w.anime
    && w'.anime == w.anime[Coerce(a.id, p.decimalInt).value := BuildRow(a, p)]
  }

  /** The read-back after the writes: a missing row records a failure, a present one clears the ledger entry. */
  function Commit(w: World, a: Anime, id: int, f: Faults, p: Parsers): (r: Inserted)
    requires a.title.Some? && a.title.value.romaji.Some? && id !in w.anime
    requires Coerce(a.id, p.decimalInt) == Some(id)
    ensures Outcome(w, a, f, p, r)
    ensures r.world.anime == w.anime[id := BuildRow(a, p)]
    ensures f.verifyExists ==> !r.ok
    ensures !f.verifyExists && SqlKey(a.id, p) == Some(id) ==> r.ok
    ensures !r.ok ==>
      Recorded(w.failures, r.world.failures, SqlKey(a.id, p), "Database verification failed after insert", f.insertLedger)
  {
    var key := SqlKey(a.id, p);
    var w' := WriteRecord(w, a, id, f, p);
    if !CheckAnimeExists(w'.anime, key, f.verifyExists) then
      Inserted(false, w'.(failures :=
        RecordFailure(w.failures, key, "Database verification failed after insert", f.insertLedger)))
    else
      Inserted(true, w'.(failures := ClearFailures(w.failures, key.value, f.clearLedger)))
  }

  /** The body of insertAnime after its existence check: coerce the id, insert the parent row, then commit. */
  function Persist(w: World, a: Anime, f: Faults, p: Parsers): (r: Inserted)
    requires a.title.Some?
    ensures Outcome(w, a, f, p, r)
    ensures r.world.anime == w.anime || Written(w, a, p, r.world)
    ensures f.animeInsert != RowReturned ==> !r.ok && r.world.anime == w.anime && r.world.episodes == w.episodes
    ensures (&& a.title.value.romaji.Some? && Coerce(a.id, p.decimalInt).Some?
             && Coerce(a.id, p.decimalInt).value !in w.anime && f.animeInsert == NoRowReturned)
      ==> Recorded(w.failures, r.world.failures, SqlKey(a.id, p), "Failed to insert into database", f.insertLedger)
  {
    var key := SqlKey(a.id, p);
    match Coerce(a.id, p.decimalInt)
    case None => Fail(w, key, "Invalid anime ID: " + RawText(a.id), f)
    case Some(id) =>
      if a.title.value.romaji.None? || id in w.anime || f.animeInsert == RowFailed then Fail(w, key, f.dbMessage, f)
      else if f.animeInsert == NoRowReturned then Fail(w, key, "Failed to insert into database", f)
      else assert f.animeInsert == RowReturned; Commit(w, a, id, f, p)
  }

  /**
    insertAnime. A record found by the existence check is a success with no
    write. Otherwise the ID is coerced (a `NaN` id throws), the parent row is
    inserted (a NOT NULL, primary-key or driver failure throws; an insert
    returning no row is a failure), the episodes are inserted best-effort,
    the parent is read back, and only then is the ledger entry deleted.
    Every false return has recorded one more failure for the record's ID.
   */
  function InsertAnime(w: World, a: Anime, f: Faults, p: Parsers): (r: Inserted)
    ensures AlreadyStored(w, a, f, p) ==> r == Inserted(true, w)
    ensures !AlreadyStored(w, a, f, p) ==> Outcome(w, a, f, p, r)
    ensures r.ok ==> SqlKey(a.id, p).Some? && SqlKey(a.id, p).value in r.world.anime
    ensures !r.ok ==> Counted(w.failures, r.world.failures, SqlKey(a.id, p), f.insertLedger)
    ensures a.title.None? ==> r == Fail(w, SqlKey(a.id, p), TitleReadError, f)
    ensures r.world.anime == w.anime || Written(w, a, p, r.world)
    ensures Grows(w, r.world)
    ensures WellFormed(w) ==> WellFormed(r.world)
    ensures !AlreadyStored(w, a, f, p) && f.animeInsert != RowReturned ==>
      !r.ok && r.world.anime == w.anime && r.world.episodes == w.episodes
    ensures !AlreadyStored(w, a, f, p) && f.verifyExists ==> !r.ok
  {
    var key := SqlKey(a.id, p);
    if a.title.None? then Fail(w, key, TitleReadError, f)
    else if CheckAnimeExists(w.anime, key, f.insertExists) then Inserted(true, w)
    else Persist(w, a, f, p)
  }

  /** A record with a numeric id, a romaji title and no failing call is stored under that id, and its ledger entry is gone. */
  lemma InsertFreshSucceeds(w: World, a: Anime, p: Parsers, n: int)
    requires a.id == Num(n) && n !in w.anime
    requires a.title.Some? && a.title.value.romaji.Some?
    ensures var r := InsertAnime(w, a, NoFaults(), p);
      && r.ok && n in r.world.anime
      && r.world.anime == w.anime[n := BuildRow(a, p)]
      && r.world.failures == w.failures - {n}
  {
  }

  /** Inserting the same record again after a success changes nothing and reports success. */
  lemma InsertIdempotent(w: World, a: Anime, f: Faults, f': Faults, p: Parsers)
    requires InsertAnime(w, a, f, p).ok
    requires !f'.insertExists
    ensures var w' := InsertAnime(w, a, f, p).world;
      InsertAnime(w', a, f', p) == Inserted(true, w')
  {
  }

  /**
    The columns of a newly stored parent row: each numeric field is the
    coerced value (text that does not parse is stored as null), and each
    date column is the formatted parsed date.
   */
  lemma StoredRowCoerced(w: World, a: Anime, f: Faults, p: Parsers, k: int)
    ensures k !in w.anime && k in InsertAnime(w, a, f, p).world.anime ==>
      && Coerce(a.id, p.decimalInt) == Some(k)
      && a.title.Some? && a.title.value.romaji.Some?
      && var row := InsertAnime(w, a, f, p).world.anime[k];
      && row.titleRomaji == a.title.value.romaji.value
      && row.seasonYear == Coerce(a.seasonYear, p.decimalInt)
      && row.episodes == Coerce(a.episodes, p.decimalInt)
      && row.duration == Coerce(a.duration, p.decimalInt)
      && row.averageScore == Coerce(a.averageScore, p.float)
      && row.popularity == Coerce(a.popularity, p.decimalInt)
      && (a.seasonYear.Text? && p.decimalInt(a.seasonYear.s).None? ==> row.seasonYear.None?)
      && row.startDate == DateColumn(a.startDate, p)
      && row.endDate == DateColumn(a.endDate, p)
  {
    var r := InsertAnime(w, a, f, p);
    if k !in w.anime && k in r.world.anime {
      assert r.world.anime != w.anime;
      assert r.world.anime[k] == BuildRow(a, p);
    }
  }

  /** Every draft is admitted under a key not yet stored, and no two drafts share a key. */
  predicate FreshDistinct(table: map<int, EpisodeRow>, drafts: seq<EpisodeDraft>, parent: int,
                          anime: map<int, AnimeRow>, errors: set<nat>, p: Parsers)
  {
    && (forall i :: 0 <= i < |drafts| ==>
          Admitted(drafts[i], i, parent, anime, errors, p) && EpisodeKey(drafts[i].id, p).value !in table)
    && (forall i, j :: 0 <= i < j < |drafts| ==> EpisodeKey(drafts[i].id, p) != EpisodeKey(drafts[j].id, p))
  }

  /** Fresh episodes with distinct keys are each stored under their key with their own fields. */
  lemma EpisodesStored(table: map<int, EpisodeRow>, drafts: seq<EpisodeDraft>, parent: int,
                       anime: map<int, AnimeRow>, errors: set<nat>, p: Parsers, i: nat)
    requires FreshDistinct(table, drafts, parent, anime, errors, p) && i < |drafts|
    ensures var r := InsertEpisodes(table, drafts, parent, anime, errors, p);
      var k := EpisodeKey(drafts[i].id, p).value;
      k in r && r[k] == EpisodeRowOf(parent, drafts[i], p)
  {
  }

  /** Fresh episodes with distinct keys add exactly their keys to the table. */
  lemma EpisodesAddExactlyTheirKeys(table: map<int, EpisodeRow>, drafts: seq<EpisodeDraft>, parent: int,
                                    anime: map<int, AnimeRow>, errors: set<nat>, p: Parsers)
    requires FreshDistinct(table, drafts, parent, anime, errors, p)
    ensures InsertEpisodes(table, drafts, parent, anime, errors, p).Keys
      == table.Keys + (set i | 0 <= i < |drafts| :: EpisodeKey(drafts[i].id, p).value)
  {
  }

  /** An admitted episode whose key is already stored changes nothing (`ON CONFLICT DO NOTHING`). */
  lemma DuplicateEpisodeIsNoOp(table: map<int, EpisodeRow>, d: EpisodeDraft, parent: int,
                               anime: map<int, AnimeRow>, errors: set<nat>, p: Parsers)
    requires EpisodeKey(d.id, p).Some? && EpisodeKey(d.id, p).value in table
    ensures InsertEpisodes(table, [d], parent, anime, errors, p) == table
  {
  }

  /**
    The object branch of parseDate feeding a date column: an object with a
    `year` key and positive year, month and day is stored as text that
    decodes back to them; an object without `year` is stored as null, and
    JSON text without `year` as whatever the platform's date parser makes of it.
   */
  lemma DateColumnRoundTrip(o: DateObj, asJson: bool, p: Parsers)
    ensures var raw := if asJson then DateJson(o) else DateObject(o);
      && (!o.hasYear && !asJson ==> DateColumn(raw, p).None?)
      && (!o.hasYear && asJson ==> DateColumn(raw, p) == FormatDate(p.dateJson(o)))
      && (o.hasYear && o.year.Some? && o.month.Some? && o.day.Some?
          && o.year.value >= 1 && o.month.value >= 1 && o.day.value >= 1 ==>
            DateColumn(raw, p).Some?
            && DecodeDate(DateColumn(raw, p).value) == Some((o.year.value, o.month.value, o.day.value)))
  {
    if o.hasYear && o.year.Some? && o.month.Some? && o.day.Some? {
      assert ParseDate(if asJson then DateJson(o) else DateObject(o), p) == Ymd(o.year.value, o.month.value, o.day.value);
      if o.year.value >= 1 && o.month.value >= 1 && o.day.value >= 1 {
        FormatDateRoundTrip(o.year.value, o.month.value, o.day.value);
      }
    }
  }
}

=== FILE: ledger.dfy ===
/**
  The `anime_failures` table as recordFailure (lib/scraper.ts) uses it: one
  entry per anime ID with the latest reason and an attempt count. The
  table's `attempt_count` column defaults to 1 (app/api/db/init/route.ts).
 */
module Ledger {
  import opened Wrappers

  datatype FailureEntry = FailureEntry(reason: string, attempts: nat)

  type FailureTable = map<int, FailureEntry>

  /** Every entry counts at least one attempt. */
  predicate LedgerValid(t: FailureTable)
  {
    forall k :: k in t ==> t[k].attempts >= 1
  }

  /** `attempt_count` for an ID, 0 when it has no entry. */
  function AttemptCount(t: FailureTable, k: int): nat
  {
    if k in t then t[k].attempts else 0
  }

  /**
    `after` is `before` with one more failure recorded for `key`: the count
    goes up by one (from 0 to 1 for a new entry), the reason is replaced and
    every other ID is untouched; or, when the database call failed or the key
    is not an integer the database accepts, nothing changed.
   */
  predicate Recorded(before: FailureTable, after: FailureTable, key: Option<int>, reason: string, fault: bool)
  {
    if fault || key.None? then after == before
    else
      && key.value in after
      && after[key.value] == FailureEntry(reason, AttemptCount(before, key.value) + 1)
      && after.Keys == before.Keys + {key.value}
      && forall k :: k in before && k != key.value ==> after[k] == before[k]
  }

  /** As `Recorded`, whatever the reason: one more attempt counted for `key`, or nothing changed. */
  predicate Counted(before: FailureTable, after: FailureTable, key: Option<int>, fault: bool)
  {
    if fault || key.None? then after == before
    else
      && key.value in after
      && after[key.value].attempts == AttemptCount(before, key.value) + 1
      && after.Keys == before.Keys + {key.value}
      && forall k :: k in before && k != key.value ==> after[k] == before[k]
  }

  /**
    recordFailure: select the entry; update it with count+1 and the new
    reason, or insert one with the default count. A failing database call
    is caught and logged, so the function never throws.
   */
  function RecordFailure(t: FailureTable, key: Option<int>, reason: string, fault: bool): (r: FailureTable)
    ensures Recorded(t, r, key, reason, fault)
    ensures Counted(t, r, key, fault)
    ensures LedgerValid(t) ==> LedgerValid(r)
  {
    if fault || key.None? then t
    else if key.value in t then t[key.value := FailureEntry(reason, t[key.value].attempts + 1)]
    else t[key.value := FailureEntry(reason, 1)]
  }

  /** `DELETE FROM anime_failures WHERE anime_id = id`; a failing delete is caught and logged. */
  function ClearFailures(t: FailureTable, k: int, fault: bool): (r: FailureTable)
    ensures !fault ==> k !in r
    ensures forall j :: j != k ==> (j in r <==> j in t) && (j in t ==> r[j] == t[j])
    ensures fault ==> r == t
    ensures LedgerValid(t) ==> LedgerValid(r)
  {
    if fault then t else t - {k}
  }

  /** Two recorded failures give count 2 and the later reason; clearing then removes the entry. */
  lemma RecordTwiceThenClear(t: FailureTable, k: int, first: string, second: string)
    requires k !in t
    ensures var t2 := RecordFailure(RecordFailure(t, Some(k), first, false), Some(k), second, false);
      && t2[k] == FailureEntry(second, 2)
      && k !in ClearFailures(t2, k, false)
      && ClearFailures(t2, k, false) == t
  {
  }

  /** Three recorded failures from an empty entry reach the retry cap of 3. */
  lemma ThreeFailuresReachCap(t: FailureTable, k: int, a: string, b: string, c: string)
    requires k !in t
    ensures AttemptCount(RecordFailure(RecordFailure(RecordFailure(t, Some(k), a, false), Some(k), b, false), Some(k), c, false), k) == 3
  {
  }
}

=== FILE: scraper.dfy ===
/**
  runScraper (lib/scraper.ts): the loop that walks anime IDs upward from
  `start`, one ID at a time, until one of its stop conditions holds.

  One iteration is the function `Step`; `Run` repeats it for at most `fuel`
  iterations, because the source loop has no bound of its own (it can walk
  stored IDs forever). What the outside world does during an iteration —
  the API's answer, failing database calls, other code calling
  setScraperRunning, the graceful-stop answer — is an `Observation`, one per ID.
 */
module Scraper {
  import opened Wrappers
  import opened Types
  import opened Ledger
  import opened Store
  import opened Fetcher
  import opened Inserter
  import opened ScraperState

  /** IDs with this many recorded failures are skipped. */
  const MaxAttempts: nat := 3

  /** The breaker: stop once failures exceed successes by this much. */
  const FailureImbalance: nat := 50

  datatype Observation = Observation(
    controller: Option<bool>, // a setScraperRunning call made elsewhere since the last check (start-scrape's own call or `finally`, or another run's exit)
    graceful: bool,           // the answer of isGracefulStopRequested for this ID
    api: ApiOutcome,
    faults: Faults)

  /** The loop variables, the module variables `scrapeCount`, `failureCount`, `lastId`, the database and the run flag. */
  datatype RunState = RunState(
    start: int, limit: int, id: int, lastId: int,
    scrapeCount: nat, failureCount: nat,
    world: World, flag: RunFlag)

  /** What one iteration did with its ID. */
  datatype Action =
    | NoIteration            // the loop condition `scrapeCount < limit` was false
    | Stopped                // the run flag was false at the top of the iteration
    | SkippedStored          // the ID is already stored
    | SkippedCapped          // the ID has reached the retry cap
    | FetchFailed(apiCalled: bool)
    | Stored
    | InsertFailed

  datatype StopReason = LimitReached | HardStop | Breaker | GracefulStop | OutOfFuel

  datatype Stepped = Stepped(state: RunState, action: Action, stop: Option<StopReason>)

  /** The iteration got past the run-flag check and finished the ID's work. */
  predicate WorkDone(a: Action)
  {
    a.SkippedStored? || a.SkippedCapped? || a.FetchFailed? || a.Stored? || a.InsertFailed?
  }

  /** The iteration asked the catalog API. */
  predicate ApiCalled(a: Action)
  {
    (a.FetchFailed? && a.apiCalled) || a.Stored? || a.InsertFailed?
  }

  /** The run flag as the top-of-iteration read sees it. */
  function Observed(flag: RunFlag, controller: Option<bool>): RunFlag
  {
    if controller.Some? then SetScraperRunning(flag, controller.value) else flag
  }

  /** The graceful-stop check that ends every path through an ID. */
  function Finish(st: RunState, action: Action, graceful: bool): Stepped
  {
    Stepped(st, action, if graceful then Some(GracefulStop) else None)
  }

  /**
    One iteration of the `for` loop for ID `st.id`. Each ID raises at most
    one counter. The run flag is read before any work; the graceful-stop
    answer only after the ID's work is complete, and the breaker only after
    a failed fetch.
   */
  function Step(st: RunState, o: Observation, p: Parsers): (r: Stepped)
    ensures st.scrapeCount >= st.limit ==> r == Stepped(st, NoIteration, Some(LimitReached))
    ensures st.scrapeCount < st.limit && !GetScraperRunning(Observed(st.flag, o.controller)) ==>
      r == Stepped(st.(flag := Observed(st.flag, o.controller)), Stopped, Some(HardStop))
    ensures r.state.flag == if r.action.NoIteration? then st.flag else Observed(st.flag, o.controller)
    ensures WorkDone(r.action) ==> GetScraperRunning(r.state.flag) && r.state.lastId == st.id
    ensures !WorkDone(r.action) ==> r.state.world == st.world && r.state.lastId == st.lastId
    ensures r.state.scrapeCount == st.scrapeCount + (if r.action.Stored? then 1 else 0)
    ensures r.state.failureCount == st.failureCount + (if r.action.FetchFailed? || r.action.InsertFailed? then 1 else 0)
    ensures r.action.Stored? ==> r.state.scrapeCount <= r.state.limit
    ensures r.state.start == st.start && r.state.limit == st.limit && r.state.id == st.id
    ensures WorkDone(r.action) && !o.faults.loopExists && st.id in st.world.anime ==> r.action == SkippedStored
    ensures (&& WorkDone(r.action) && !o.faults.loopExists && st.id !in st.world.anime
             && !o.faults.ledgerQuery && AttemptCount(st.world.failures, st.id) >= MaxAttempts)
      ==> r.action == SkippedCapped
    ensures r.action == SkippedStored ==> CheckAnimeExists(st.world.anime, Some(st.id), o.faults.loopExists)
    ensures r.action == SkippedCapped ==> !o.faults.ledgerQuery && AttemptCount(st.world.failures, st.id) >= MaxAttempts
    ensures r.action.SkippedStored? || r.action.SkippedCapped? ==> r.state.world == st.world
    ensures WorkDone(r.action) && !r.action.SkippedStored? && o.faults.ledgerQuery ==> !r.action.SkippedCapped?
    ensures (&& WorkDone(r.action) && !r.action.SkippedStored? && !r.action.SkippedCapped?
             && !o.faults.fetchExists && st.id !in st.world.anime)
      ==> ApiCalled(r.action)
    ensures ApiCalled(r.action) ==> !CheckAnimeExists(st.world.anime, Some(st.id), o.faults.fetchExists)
    ensures r.action == FetchFailed(false) ==> r.state.world == st.world
    ensures r.action == FetchFailed(true) ==>
      && r.state.world.anime == st.world.anime && r.state.world.episodes == st.world.episodes
      && Recorded(st.world.failures, r.state.world.failures, Some(st.id), FailureReason(o.api), o.faults.fetchLedger)
    ensures r.action.Stored? || r.action.InsertFailed? ==>
      && o.api.Response? && Ok(o.api.status) && o.api.body.Json? && o.api.body.data.title.Some?
    ensures r.action.Stored? ==>
      SqlKey(o.api.body.data.id, p).Some? && SqlKey(o.api.body.data.id, p).value in r.state.world.anime
    ensures r.action.InsertFailed? ==>
      Counted(st.world.failures, r.state.world.failures, SqlKey(o.api.body.data.id, p), o.faults.insertLedger)
    ensures r.action.Stored? ==> forall k :: k in st.world.failures && Some(k) != SqlKey(o.api.body.data.id, p) ==>
      k in r.state.world.failures && r.state.world.failures[k] == st.world.failures[k]
    ensures r.action.Stored? && !AlreadyStored(st.world, MapPayload(o.api.body.data), o.faults, p) && !o.faults.clearLedger ==>
      SqlKey(o.api.body.data.id, p).value !in r.state.world.failures
    ensures r.stop == Some(Breaker) <==> r.action.FetchFailed? && r.state.failureCount - r.state.scrapeCount >= FailureImbalance
    ensures r.stop == Some(GracefulStop) <==> WorkDone(r.action) && o.graceful && r.stop != Some(Breaker)
    ensures r.stop.None? ==> WorkDone(r.action) && !o.graceful
    ensures Grows(st.world, r.state.world)
    ensures WellFormed(st.world) ==> WellFormed(r.state.world)
  {
    if st.scrapeCount >= st.limit then Stepped(st, NoIteration, Some(LimitReached))
    else
      var flag := Observed(st.flag, o.controller);
      if !GetScraperRunning(flag) then Stepped(st.(flag := flag), Stopped, Some(HardStop))
      else
        var id := st.id;
        var cur := st.(flag := flag, lastId := id);
        var w := st.world;
        if CheckAnimeExists(w.anime, Some(id), o.faults.loopExists) then Finish(cur, SkippedStored, o.graceful)
        else if !o.faults.ledgerQuery && AttemptCount(w.failures, id) >= MaxAttempts then
          Finish(cur, SkippedCapped, o.graceful)
        else Attempt(cur, o, p)
  }

  /** An ID's work before the stop checks: the state after it and what was done. */
  datatype Worked = Worked(state: RunState, action: Action)

  /**
    The fetch and insert for `st.id` once neither skip applies: a failed
    fetch counts a failure, a successful insert a success and a failed one
    a failure. The answer to the graceful-stop check plays no part.
   */
  function Work(st: RunState, api: ApiOutcome, f: Faults, p: Parsers): (r: Worked)
    requires st.scrapeCount < st.limit
    ensures r.action.FetchFailed? || r.action.Stored? || r.action.InsertFailed?
    ensures r.state == st.(world := r.state.world, scrapeCount := r.state.scrapeCount, failureCount := r.state.failureCount)
    ensures r.state.scrapeCount == st.scrapeCount + (if r.action.Stored? then 1 else 0)
    ensures r.state.failureCount == st.failureCount + (if r.action.Stored? then 0 else 1)
    ensures !CheckAnimeExists(st.world.anime, Some(st.id), f.fetchExists) <==> ApiCalled(r.action)
    ensures r.action == FetchFailed(false) ==> r.state.world == st.world
    ensures r.action == FetchFailed(true) ==>
      && r.state.world.anime == st.world.anime && r.state.world.episodes == st.world.episodes
      && Recorded(st.world.failures, r.state.world.failures, Some(st.id), FailureReason(api), f.fetchLedger)
    ensures r.action.Stored? || r.action.InsertFailed? ==>
      && api.Response? && Ok(api.status) && api.body.Json? && api.body.data.title.Some?
    ensures r.action.Stored? ==>
      SqlKey(api.body.data.id, p).Some? && SqlKey(api.body.data.id, p).value in r.state.world.anime
    ensures r.action.InsertFailed? ==>
      Counted(st.world.failures, r.state.world.failures, SqlKey(api.body.data.id, p), f.insertLedger)
    ensures r.action.Stored? ==> forall k :: k in st.world.failures && Some(k) != SqlKey(api.body.data.id, p) ==>
      k in r.state.world.failures && r.state.world.failures[k] == st.world.failures[k]
    ensures r.action.Stored? && AlreadyStored(st.world, MapPayload(api.body.data), f, p) ==> r.state.world == st.world
    ensures r.action.Stored? && !AlreadyStored(st.world, MapPayload(api.body.data), f, p) && !f.clearLedger ==>
      SqlKey(api.body.data.id, p).value !in r.state.world.failures
    ensures Grows(st.world, r.state.world)
    ensures WellFormed(st.world) ==> WellFormed(r.state.world)
  {
    var fetched := FetchAnime(st.world, st.id, api, f);
    var w1 := st.world.(failures := fetched.failures);
    match fetched.anime
    case None => Worked(st.(world := w1, failureCount := st.failureCount + 1), FetchFailed(fetched.apiCalled))
    case Some(a) =>
      var ins := InsertAnime(w1, a, f, p);
      if ins.ok then Worked(st.(world := ins.world, scrapeCount := st.scrapeCount + 1), Stored)
      else Worked(st.(world := ins.world, failureCount := st.failureCount + 1), InsertFailed)
  }

  /** The work for `st.id`, then the breaker (after a failed fetch only) and the graceful-stop check. */
  function Attempt(st: RunState, o: Observation, p: Parsers): (r: Stepped)
    requires st.scrapeCount < st.limit
    ensures r.state == Work(st, o.api, o.faults, p).state && r.action == Work(st, o.api, o.faults, p).action
    ensures r.stop == Some(Breaker) <==> r.action.FetchFailed? && r.state.failureCount - r.state.scrapeCount >= FailureImbalance
    ensures r.stop == Some(GracefulStop) <==> o.graceful && r.stop != Some(Breaker)
    ensures r.stop.None? ==> !o.graceful
  {
    var done := Work(st, o.api, o.faults, p);
    if done.action.FetchFailed? && done.state.failureCount - done.state.scrapeCount >= FailureImbalance then
      Stepped(done.state, done.action, Some(Breaker))
    else Finish(done.state, done.action, o.graceful)
  }

  /** The state at the top of an iteration: each ID before `id` raised at most one counter. */
  predicate AtTop(st: RunState)
  {
    && st.start <= st.id
    && st.lastId == (if st.id == st.start then st.start else st.id - 1)
    && st.scrapeCount + st.failureCount <= st.id - st.start
    && (st.scrapeCount == 0 || st.scrapeCount <= st.limit)
  }

  datatype RunResult = RunResult(state: RunState, reason: StopReason)

  /**
    The loop from the top of an iteration, for at most `fuel` more
    iterations. Leaving the loop clears the run flag.
   */
  function Run(st: RunState, oracle: int -> Observation, p: Parsers, fuel: nat): (r: RunResult)
    requires AtTop(st)
    ensures r.reason != OutOfFuel ==> !GetScraperRunning(r.state.flag)
    ensures r.reason == OutOfFuel ==> AtTop(r.state)
    ensures r.state.scrapeCount + r.state.failureCount <= r.state.lastId - r.state.start + 1
    ensures r.state.scrapeCount == 0 || r.state.scrapeCount <= r.state.limit
    ensures r.state.start == st.start && r.state.limit == st.limit
    ensures st.lastId <= r.state.lastId
    ensures r.reason == LimitReached ==> r.state.scrapeCount >= r.state.limit
    ensures r.reason == Breaker ==> r.state.failureCount - r.state.scrapeCount >= FailureImbalance
    ensures Grows(st.world, r.state.world)
    ensures WellFormed(st.world) ==> WellFormed(r.state.world)
    decreases fuel
  {
    if fuel == 0 then RunResult(st, OutOfFuel)
    else
      var s := Step(st, oracle(st.id), p);
      match s.stop
      case Some(reason) => RunResult(s.state.(flag := SetScraperRunning(s.state.flag, false)), reason)
      case None => Run(s.state.(id := st.id + 1), oracle, p, fuel - 1)
  }

  /** The state runScraper starts from: counters reset, `lastId = start`. */
  function Begin(start: int, limit: int, world: World, flag: RunFlag): RunState
  {
    RunState(start, limit, start, start, 0, 0, world, flag)
  }

  /**
    runScraper(start, limit), for at most `fuel` iterations. It returns
    `{ lastId, scrapeCount, failureCount }` with the database and the run
    flag it leaves behind.
   */
  function RunScraper(start: int, limit: int, world: World, flag: RunFlag,
                      oracle: int -> Observation, p: Parsers, fuel: nat): (r: RunResult)
    ensures r.reason != OutOfFuel ==> !GetScraperRunning(r.state.flag)
    ensures r.state.scrapeCount == 0 || r.state.scrapeCount <= limit
    ensures start <= r.state.lastId
    ensures r.state.scrapeCount + r.state.failureCount <= r.state.lastId - start + 1
    ensures r.reason == LimitReached ==> r.state.scrapeCount >= limit
    ensures r.reason == Breaker ==> r.state.failureCount - r.state.scrapeCount >= FailureImbalance
    ensures Grows(world, r.state.world)
    ensures WellFormed(world) ==> WellFormed(r.state.world)
  {
    Run(Begin(start, limit, world, flag), oracle, p, fuel)
  }

  /** The graceful-stop answer decides only whether the loop goes on: the ID's work and the counters do not depend on it. */
  lemma GracefulOnlyDecidesStop(st: RunState, o: Observation, p: Parsers, g: bool)
    ensures Step(st, o.(graceful := g), p).state == Step(st, o, p).state
    ensures Step(st, o.(graceful := g), p).action == Step(st, o, p).action
  {
  }

  /**
    A run started while the flag is clear, with no request handler setting
    it, stops at the first iteration without touching the database (as the
    cron route's call does).
   */
  lemma IdleFlagStopsAtOnce(start: int, limit: int, world: World, flag: RunFlag,
                            oracle: int -> Observation, p: Parsers, fuel: nat)
    requires limit > 0 && fuel >= 1
    requires !GetScraperRunning(flag) && oracle(start).controller.None?
    ensures var r := RunScraper(start, limit, world, flag, oracle, p, fuel);
      && r.reason == HardStop
      && r.state.lastId == start && r.state.scrapeCount == 0 && r.state.failureCount == 0
      && r.state.world == world && !GetScraperRunning(r.state.flag)
  {
  }

  /** An observation in which nothing fails and no handler or graceful stop intervenes. */
  predicate Quiet(o: Observation)
  {
    o.controller.None? && !o.graceful && o.faults == NoFaults()
  }

  /** An observation in which the API answers with a status outside 200-299 and nothing else intervenes. */
  predicate Refuses(o: Observation)
  {
    Quiet(o) && o.api.Response? && !Ok(o.api.status)
  }

  /** One iteration for an unstored, uncapped ID the API refuses records one more attempt with the status as reason. */
  lemma RefusedIdRecorded(st: RunState, o: Observation, p: Parsers)
    requires st.scrapeCount < st.limit && GetScraperRunning(st.flag)
    requires Refuses(o) && st.id !in st.world.anime
    requires AttemptCount(st.world.failures, st.id) < MaxAttempts
    ensures var r := Step(st, o, p);
      && r.action == FetchFailed(true)
      && r.state.world.anime == st.world.anime
      && st.id in r.state.world.failures
      && r.state.world.failures[st.id] == FailureEntry(StatusReason(o.api.status), AttemptCount(st.world.failures, st.id) + 1)
  {
  }

  /** The first iteration of a run started at `id` with the flag set. */
  function FirstStep(id: int, limit: int, w: World, o: Observation, p: Parsers): Stepped
  {
    Step(Begin(id, limit, w, RunFlag(true)), o, p)
  }

  /**
    An ID the API refuses in three runs started at it has three attempts
    recorded, the last status as reason; a fourth run skips it without
    calling the API and changes neither the database nor the counters.
   */
  lemma ThreeFailedFetchesThenSkipped(w: World, k: int, limit: int,
                                      o1: Observation, o2: Observation, o3: Observation, o4: Observation, p: Parsers)
    requires limit > 0 && k !in w.anime && k !in w.failures
    requires Refuses(o1) && Refuses(o2) && Refuses(o3) && Quiet(o4)
    ensures var r1 := FirstStep(k, limit, w, o1, p);
      var r2 := FirstStep(k, limit, r1.state.world, o2, p);
      var r3 := FirstStep(k, limit, r2.state.world, o3, p);
      var r4 := FirstStep(k, limit, r3.state.world, o4, p);
      && r1.action == FetchFailed(true) && r2.action == FetchFailed(true) && r3.action == FetchFailed(true)
      && r3.state.world.anime == w.anime
      && k in r3.state.world.failures
      && r3.state.world.failures[k] == FailureEntry(StatusReason(o3.api.status), 3)
      && r4.action == SkippedCapped && !ApiCalled(r4.action) && r4.stop.None?
      && r4.state.world == r3.state.world
      && r4.state.scrapeCount == 0 && r4.state.failureCount == 0
  {
    var r1 := FirstStep(k, limit, w, o1, p);
    RefusedIdRecorded(Begin(k, limit, w, RunFlag(true)), o1, p);
    var r2 := FirstStep(k, limit, r1.state.world, o2, p);
    RefusedIdRecorded(Begin(k, limit, r1.state.world, RunFlag(true)), o2, p);
    RefusedIdRecorded(Begin(k, limit, r2.state.world, RunFlag(true)), o3, p);
  }

  /** A successful API answer for `id`: a status 200 JSON payload with that id and a romaji title. */
  predicate Serves(o: Observation, id: int)
  {
    && Quiet(o) && o.api.Response? && o.api.status == 200 && o.api.body.Json?
    && o.api.body.data.id == Num(id)
    && o.api.body.data.title.Some? && o.api.body.data.title.value.romaji.Some?
  }

  /** One iteration for an unstored ID the API serves stores it and counts one success. */
  lemma ServedIdStored(st: RunState, o: Observation, p: Parsers)
    requires st.scrapeCount < st.limit && GetScraperRunning(st.flag)
    requires Serves(o, st.id) && st.id !in st.world.anime
    requires AttemptCount(st.world.failures, st.id) < MaxAttempts
    ensures var r := Step(st, o, p);
      && r.action == Stored && r.stop.None?
      && r.state.scrapeCount == st.scrapeCount + 1 && r.state.failureCount == st.failureCount
      && r.state.lastId == st.id && r.state.flag == st.flag
      && r.state.world.anime.Keys == st.world.anime.Keys + {st.id}
      && r.state.world.failures == st.world.failures - {st.id}
  {
    var f := FetchAnime(st.world, st.id, o.api, o.faults);
    InsertFreshSucceeds(st.world.(failures := f.failures), MapPayload(o.api.body.data), p, st.id);
  }

  /** The two iterations of a run from 1 with limit 2 whose IDs are both served and fresh. */
  lemma TwoServedSteps(world: World, oracle: int -> Observation, p: Parsers)
    requires 1 !in world.anime && 2 !in world.anime
    requires AttemptCount(world.failures, 1) < MaxAttempts && AttemptCount(world.failures, 2) < MaxAttempts
    requires Serves(oracle(1), 1) && Serves(oracle(2), 2)
    ensures var s1 := Step(Begin(1, 2, world, RunFlag(true)), oracle(1), p);
      var s2 := Step(s1.state.(id := 2), oracle(2), p);
      && s1.stop.None? && s2.stop.None?
      && s2.state == RunState(1, 2, 2, 2, 2, 0, s2.state.world, RunFlag(true))
      && 1 in s2.state.world.anime && 2 in s2.state.world.anime
  {
    var st0 := Begin(1, 2, world, RunFlag(true));
    ServedIdStored(st0, oracle(1), p);
    ServedIdStored(Step(st0, oracle(1), p).state.(id := 2), oracle(2), p);
  }

  /**
    Two fresh IDs served by the API with a limit of two: the run stores
    both, reports `{ lastId: 2, scrapeCount: 2, failureCount: 0 }`, stops
    on the limit and clears the flag.
   */
  lemma TwoServedIdsReachLimit(world: World, oracle: int -> Observation, p: Parsers, fuel: nat)
    requires 1 !in world.anime && 2 !in world.anime
    requires AttemptCount(world.failures, 1) < MaxAttempts && AttemptCount(world.failures, 2) < MaxAttempts
    requires Serves(oracle(1), 1) && Serves(oracle(2), 2)
    requires fuel >= 3
    ensures var r := RunScraper(1, 2, world, RunFlag(true), oracle, p, fuel);
      && r.reason == LimitReached
      && r.state.lastId == 2 && r.state.scrapeCount == 2 && r.state.failureCount == 0
      && 1 in r.state.world.anime && 2 in r.state.world.anime
      && !GetScraperRunning(r.state.flag)
  {
    TwoServedSteps(world, oracle, p);
    var st0 := Begin(1, 2, world, RunFlag(true));
    var st1 := Step(st0, oracle(1), p).state.(id := 2);
    var st2 := Step(st1, oracle(2), p).state.(id := 3);
    assert Run(st1, oracle, p, fuel - 1) == Run(st2, oracle, p, fuel - 2);
  }
}

=== FILE: scraper_state.dfy ===
/**
  lib/scraperState.ts: the process-wide flag saying whether a scrape should
  keep going. It holds one boolean, starts false, and has a setter and a
  getter; nothing else (no timestamps, no graceful-stop flag).
 */
module ScraperState {
  import opened Wrappers

  datatype RunFlag = RunFlag(running: bool)

  /** The module's state when the process starts. */
  const Initial: RunFlag := RunFlag(false)

  function SetScraperRunning(s: RunFlag, value: bool): (s': RunFlag)
    ensures GetScraperRunning(s') == value
  {
    RunFlag(value)
  }

  function GetScraperRunning(s: RunFlag): bool
  {
    s.running
  }

  /** One call into the module, from the loop or from a request handler. */
  datatype Call = Set(value: bool) | Get

  /** The state after a call, and what the call returned (a `Get` returns the flag). */
  function Apply(s: RunFlag, c: Call): (RunFlag, Option<bool>)
  {
    match c
    case Set(v) => (SetScraperRunning(s, v), None)
    case Get => (s, Some(GetScraperRunning(s)))
  }

  /** The state after a sequence of calls made since process start. */
  function Replay(calls: seq<Call>): RunFlag
    decreases |calls|
  {
    if |calls| == 0 then Initial
    else Apply(Replay(calls[..|calls| - 1]), calls[|calls| - 1]).0
  }

  /** What the getter answers after `calls`. */
  function Read(calls: seq<Call>): bool
  {
    Apply(Replay(calls), Get).1.value
  }

  /** Before any setter call the flag reads false. */
  lemma {:induction false} IdleUntilSet(calls: seq<Call>)
    requires forall j :: 0 <= j < |calls| ==> calls[j].Get?
    ensures !Read(calls)
    decreases |calls|
  {
    if |calls| > 0 {
      IdleUntilSet(calls[..|calls| - 1]);
    }
  }

  /** The getter returns the value passed to the most recent setter call. */
  lemma {:induction false} ReadsLatestSet(calls: seq<Call>, i: nat)
    requires i < |calls| && calls[i].Set?
    requires forall j :: i < j < |calls| ==> calls[j].Get?
    ensures Read(calls) == calls[i].value
    decreases |calls|
  {
    if i < |calls| - 1 {
      ReadsLatestSet(calls[..|calls| - 1], i);
    }
  }

  /** Setting the same value twice leaves the module as setting it once. */
  lemma SetTwiceIsSetOnce(calls: seq<Call>, v: bool)
    ensures Replay(calls + [Set(v), Set(v)]) == Replay(calls + [Set(v)])
  {
  }

  /** Reading has no side effect: a read changes nothing and two reads in a row agree. */
  lemma ReadIsPure(calls: seq<Call>)
    ensures Replay(calls + [Get]) == Replay(calls)
    ensures Read(calls + [Get]) == Read(calls)
  {
  }
}

=== FILE: store.dfy ===
/**
  The database as the scraper sees it: the `anime`, `anime_episodes` and
  `anime_failures` tables as maps keyed by their ID columns, and the
  outcomes of the individual database calls one ID's processing makes.
 */
module Store {
  import opened Wrappers
  import opened Types
  import opened Ledger

  /** A row of `anime`; `title_romaji` is NOT NULL, every other column may be null. */
  datatype AnimeRow = AnimeRow(
    titleRomaji: string, titleEnglish: Option<string>, titleNative: Option<string>,
    format: Option<string>, status: Option<string>, season: Option<string>,
    seasonYear: Option<int>, episodes: Option<int>, duration: Option<int>,
    genres: Option<string>, averageScore: Option<int>, popularity: Option<int>,
    description: Option<string>, releaseDate: Option<string>,
    startDate: Option<string>, endDate: Option<string>)

  /** A row of `anime_episodes`; `anime_id` references `anime(id)`. */
  datatype EpisodeRow = EpisodeRow(
    animeId: int, number: Option<int>,
    title: Option<string>, description: Option<string>, airedAt: Option<string>)

  datatype World = World(
    anime: map<int, AnimeRow>,
    episodes: map<int, EpisodeRow>,
    failures: FailureTable)

  /** The foreign key of `anime_episodes`: every episode's parent is stored. */
  predicate Integrity(w: World)
  {
    forall k :: k in w.episodes ==> w.episodes[k].animeId in w.anime
  }

  /** The well-formedness the database keeps: the foreign key holds and every ledger entry counts an attempt. */
  predicate WellFormed(w: World)
  {
    Integrity(w) && LedgerValid(w.failures)
  }

  /** Rows are only ever added: nothing stored is removed or rewritten. */
  predicate Grows(w: World, w': World)
  {
    && w.anime.Keys <= w'.anime.Keys
    && (forall k :: k in w.anime ==> w'.anime[k] == w.anime[k])
    && w.episodes.Keys <= w'.episodes.Keys
    && (forall k :: k in w.episodes ==> w'.episodes[k] == w.episodes[k])
  }

  /** What `INSERT INTO anime … RETURNING id` yields when no constraint is violated. */
  datatype RowInsert = RowReturned | NoRowReturned | RowFailed

  /**
    Which database calls fail while one ID is processed, by call site. A
    failed call throws with `dbMessage`; each call site's handler decides
    what that means.
   */
  datatype Faults = Faults(
    loopExists: bool,        // the loop's existence check
    ledgerQuery: bool,       // the loop's attempt-count query
    fetchExists: bool,       // fetchAnime's existence check
    fetchLedger: bool,       // the recordFailure call inside fetchAnime
    insertExists: bool,      // insertAnime's existence check
    animeInsert: RowInsert,  // the INSERT into anime
    episodeFailures: set<nat>, // positions of episode INSERTs that fail
    verifyExists: bool,      // the existence check after the insert
    insertLedger: bool,      // the recordFailure call inside insertAnime
    clearLedger: bool,       // the DELETE of the ledger entry
    dbMessage: string)

  /** No database call fails. */
  function NoFaults(): (f: Faults)
  {
    Faults(false, false, false, false, false, RowReturned, {}, false, false, false, "")
  }

  /**
    The integer the database reads for an ID bound as a query parameter: a
    number as is, text through the INTEGER cast, null/undefined as no key.
   */
  function SqlKey(v: RawNum, p: Parsers): Option<int>
  {
    match v
    case Missing => None
    case Num(n) => Some(n)
    case Text(s) => p.sqlInt(s)
  }

  /**
    checkAnimeExists: whether `SELECT id FROM anime WHERE id = key` finds a
    row; a failing query is caught and answers false.
   */
  function CheckAnimeExists(anime: map<int, AnimeRow>, key: Option<int>, fault: bool): (r: bool)
    ensures r ==> key.Some? && key.value in anime
    ensures !fault && key.Some? && key.value in anime ==> r
    ensures fault ==> !r
  {
    !fault && key.Some? && key.value in anime
  }
}

=== FILE: types.dfy ===
/**
  The records of types/index.d.ts (`Anime`, `AnimeEpisode`) and the raw
  JavaScript values they carry before lib/scraper.ts coerces them, plus the
  API payload fetchAnime reads.

  Every JavaScript number in the model is an integer.  Parsing text into a
  number (`parseInt`, `parseFloat`, the database's own text-to-INTEGER cast)
  and parsing free-form date text (`new Date(text)`) are library behaviour:
  they are parameters of the model, gathered in `Parsers`, where `None`
  stands for `NaN` or a rejected cast.
 */
module Types {
  import opened Wrappers
  import opened Dates
  import Decimal

  /** A value in a numeric position: null/undefined, a number, or text still to be parsed. */
  datatype RawNum = Missing | Num(n: int) | Text(s: string)

  /** JavaScript truthiness: null/undefined, 0 and "" are false. */
  predicate Truthy(v: RawNum)
  {
    match v
    case Missing => false
    case Num(n) => n != 0
    case Text(s) => s != ""
  }

  /** `a || b` on numeric positions. */
  function Or(a: RawNum, b: RawNum): RawNum
  {
    if Truthy(a) then a else b
  }

  /** `a || b` on optional text: an empty string is false. */
  function OrText(a: Option<string>, b: Option<string>): Option<string>
  {
    if a.Some? && a.value != "" then a else b
  }

  datatype Parsers = Parsers(
    decimalInt: string -> Option<int>,      // parseInt(s, 10)
    anyInt: string -> Option<int>,          // parseInt(s), no radix
    float: string -> Option<int>,           // parseFloat(s)
    sqlInt: string -> Option<int>,          // the database reading text bound to an INTEGER column
    dateText: string -> Option<DateParts>,  // the `new Date(text)` branch of parseDate
    dateJson: DateObj -> Option<DateParts>) // `new Date(JSON.stringify(obj))`, reached by JSON text without `year`

  /**
    The numeric coercion insertAnime applies to every numeric field: null
    stays null, a number is kept, text is parsed and `NaN` becomes null.
   */
  function Coerce(v: RawNum, parse: string -> Option<int>): Option<int>
  {
    match v
    case Missing => None
    case Num(n) => Some(n)
    case Text(s) => parse(s)
  }

  /** `String(v)` as it appears in an error message. */
  function RawText(v: RawNum): string
  {
    match v
    case Missing => "undefined"
    case Num(n) => Decimal.IntToString(n)
    case Text(s) => s
  }

  /** The TypeError thrown by reading `title.romaji` when `title` is absent. */
  const TitleReadError: string := "Cannot read properties of undefined (reading 'romaji')"

  /** The `title` object: `romaji` is required by the type but may be absent in a payload. */
  datatype Title = Title(romaji: Option<string>, english: Option<string>, native: Option<string>)

  /** `AnimeEpisode` as the API delivers it in the `episodes` array. */
  datatype RawEpisode = RawEpisode(
    id: RawNum, number: RawNum,
    title: Option<string>, description: Option<string>, airedAt: Option<string>)

  /** An episode found under one of the fallback property names, with its alternative field names. */
  datatype AltEpisode = AltEpisode(
    id: RawNum, number: RawNum, episodeNumber: RawNum,
    title: Option<string>, name: Option<string>,
    description: Option<string>, synopsis: Option<string>,
    airedAt: Option<string>, airedAtSnake: Option<string>, airDate: Option<string>)

  /**
    A date object from the API: whether it has a `year` key, and each of
    year/month/day when its value is a number (`typeof x === 'number'`).
   */
  datatype DateObj = DateObj(hasYear: bool, year: Option<int>, month: Option<int>, day: Option<int>)

  /** What parseDate receives. */
  datatype RawDate =
    | NoDate                   // null, undefined or ""
    | DateObject(obj: DateObj) // an object
    | DateJson(obj: DateObj)   // a string holding JSON.stringify(obj)
    | DateText(text: string)   // any other non-empty string

  /** The `Anime` record handed to insertAnime; `extra` holds the index-signature properties that are arrays. */
  datatype Anime = Anime(
    id: RawNum, title: Option<Title>,
    format: Option<string>, status: Option<string>, season: Option<string>,
    seasonYear: RawNum, episodes: RawNum, duration: RawNum,
    genres: Option<seq<string>>, averageScore: RawNum, popularity: RawNum,
    description: Option<string>, startDate: RawDate, endDate: RawDate,
    releaseDate: Option<string>, episodesList: Option<seq<RawEpisode>>,
    extra: map<string, seq<AltEpisode>>)

  /** The JSON object the catalog API returns for one ID. */
  datatype Payload = Payload(
    id: RawNum, title: Option<Title>,
    format: Option<string>, status: Option<string>, season: Option<string>,
    seasonYear: RawNum, duration: RawNum, genres: Option<seq<string>>,
    popularity: RawNum, description: Option<string>, releaseDate: Option<string>,
    episodes: Option<seq<RawEpisode>>,
    totalEpisodes: RawNum, currentEpisode: RawNum,
    rating: RawNum, averageScore: RawNum,
    startDate: Option<DateObj>, endDate: Option<DateObj>,
    extra: map<string, seq<AltEpisode>>)
}

=== FILE: wrappers.dfy ===
/** The optional value used wherever the source has `null`, `undefined` or `NaN`. */
module Wrappers {

  datatype Option<+T> = None | Some(value: T) {

    /** The wrapped value, or `default` when there is none (`x ?? default`). */
    function GetOr(default: T): T
    {
      match this
      case Some(v) => v
      case None => default
    }
  }
}
